=== FILE: README.md ===
# itg-launch supervisor, modelled in Dafny

`main.py` is a small launcher for a rhythm-game recording session. It
classifies the running processes, then starts the capture app (camostudio),
the game (ITGMania) and the recorder (OBS in recording mode). It watches the
recorder while the game runs and restarts it after a five-second grace
period. On the way out it closes the recorder.

This project models that supervision logic as pure functions over
observations. Every question the script asks the OS is an input:

- a process snapshot;
- an `is_running` answer;
- the value of the `signaled` flag at each check;
- the current time;
- whether a spawn succeeded.

Every action the script takes is an event in a trace: `Spawn`, `Sleep`,
`Focus`, `Click` and `Close`.

Modules, leaves first:

- `Wrappers`: `Option`.
- `Text`: exact suffix test and `find` (first index of a substring, or -1).
- `Registry`: process records, the role predicates, per-process roles,
  snapshot classification, and the first recording recorder of a snapshot.
- `Recorder`: recorder handles, events, and the reuse-or-spawn recorder start.
- `Launcher`: the early exits and the five-check launch sequence.
- `Watchdog`: one loop iteration over the time the recorder was first seen
  dead, and the loop.
- `Session`: `main` as a whole, including the `finally` cleanup.

Facts about `main.py` that shape the model:

- Names are matched with a case-sensitive `endswith`. The game is launched
  from a file named `ITGmania.exe`, while the test looks for `itgmania.exe`.
  The model keeps the exact, case-sensitive test.
- The three name suffixes are pairwise disjoint (`Registry.NamesExclusive`).
  So the `if/elif` priority never decides a role.
- No flag check precedes the capture-app spawn. The five checks come after
  the capture spawn, the game spawn, the 5-second wait, the focus click and
  the 1-second wait.
- A restart does not clear the time the recorder was first seen dead. A
  recorder still seen dead on the next iteration is restarted again
  (`Watchdog.RestartStorm`).
- A restart needs strictly more than 5 seconds since the recorder was first
  seen dead. With one iteration per second from time 1, the first restart
  comes at time 7 (`Watchdog.GraceScenario`).
- Classification keeps the last match for each role. The recorder start
  adopts the first recording instance it finds.
- A launch abandoned before the recorder start leaves nothing for the cleanup
  to close. The recorder variable is still empty there, because a recording
  instance found at classification ends the run early.

## Model

| member | source | states |
|---|---|---|
| Text.Find | main.py:138 | the result is -1 exactly when the substring occurs nowhere; otherwise it is the least index where it occurs |
| Registry.NamesExclusive | main.py:133-146 | no process name ends with two of `camostudio.exe`, `itgmania.exe`, `obs64.exe` |
| Registry.RoleOf | main.py:28-34 | a process gets at most one role, and it gets a role exactly when that role's own predicate holds, so the elif priority never changes the outcome |
| Registry.RecorderRoleNeedsFlag | main.py:133-138 | an `obs64.exe` process has the recording role iff some argument contains `--startrecording` as a substring; without the flag it has no role at all |
| Registry.Classify | main.py:28-34 | each role slot holds the last process of the snapshot matching that role, or nothing when no process matches |
| Registry.FirstRecording | main.py:114-117 | the result is the first recording recorder of the snapshot, or None when there is none |
| Recorder.StartObs | main.py:113-130 | it spawns nothing exactly when a recording instance exists; otherwise it spawns one recorder; it yields no handle only when that spawn fails; every handle refers to a recorder |
| Recorder.StartObsReuseOrSpawn | main.py:113-130 | with a recording instance present, no spawn, and the first such instance is adopted; without one, exactly one spawn and a fresh handle iff the spawn succeeds |
| Launcher.Launch | main.py:36-82 | early exit iff the game or a recording recorder is present; the game check comes first; an early exit does nothing; a cancelled launch saw a signal |
| Launcher.LaunchSpawnsCaptureIff | main.py:45-49 | once past the early exits, the capture app is spawned iff classification found none |
| Launcher.LaunchSpawnsGameIff | main.py:45-58 | the game is spawned iff there was no early exit, the capture step succeeded, and the check after it saw no signal |
| Launcher.LaunchReachesRecorderIff | main.py:51-82 | the recorder start is reached iff there was no early exit, both spawns succeeded, and all five checks saw no signal |
| Launcher.LaunchTraceIsPrefix | main.py:44-82 | wherever the launch stops, its actions are a prefix of capture, game, wait 5, focus, click, wait 1, recorder start |
| Launcher.LaunchClosesNothing | main.py:44-82 | no action of the launch sequence is a close request, however far it gets |
| Launcher.LaunchStopsAtCheck | main.py:51-79 | a failed game spawn, or a flag seen at any of the five checks, abandons the launch at that point: its actions are exactly the script's steps up to there, and no later sleep, focus or click happens |
| Launcher.LaunchCaptureFails | main.py:45-49 | a missing capture app that fails to spawn abandons the launch after that single attempt |
| Launcher.LaunchStartsRecorder | main.py:81-82 | with every check clear the launch does the whole script up to the recorder start and then the start's actions; a launched session holds exactly the handle the recorder start yields; the launch spawns a recorder iff it got that far and no recording instance was there to adopt |
| Launcher.LaunchFocusesOnce | main.py:66-82 | a launch that started the recorder focused the game exactly once |
| Launcher.LaunchSpawnsOnce | main.py:44-82 | the launch spawns each of the three apps at most once |
| Watchdog.Tick | main.py:88-97 | after an iteration the time of death is unset iff the recorder was seen running; a first dead observation records the current time and later ones keep it, restarts included; the handle changes only when a restart is due, that is, the recorder was seen dead before and the time since is more than 5; a due restart takes the recorder start's handle; a failed restart spawn ends the iteration |
| Watchdog.TickEvents | main.py:88-97 | an iteration with no restart due, or with a recording instance to adopt, only sleeps and refocuses; a due restart with nothing to adopt spawns first, and a failed spawn ends the iteration right there |
| Watchdog.TickActions | main.py:88-97 | a recorder is spawned, at most once, iff a restart is due and no recording instance can be adopted; a completed iteration ends with the 1-second sleep and one refocus |
| Watchdog.Watch | main.py:87-97 | every completed iteration had the flag clear and the game running; the loop stops at the first guard that fails, at a failed restart, or when the observations run out |
| Watchdog.WatchFaultsOnlyOnCrash | main.py:87-94 | the loop stops with an error only at an iteration whose restart spawn failed, on the state it held before that iteration |
| Watchdog.CrashEndsLoop | main.py:87-94 | a restart whose spawn fails ends the loop with an error at that iteration, after the iterations completed before it |
| Watchdog.CrashRecordsAttempt | main.py:87-94 | the loop's actions up to a failed restart are those of the iterations completed before it, in order, followed by the failed spawn attempt itself |
| Watchdog.WatchExtends | main.py:87-97 | the loop runs its iterations in order: while the first k observations leave it running, its actions over them are the start of its actions over all observations, and it completes at least k iterations |
| Watchdog.HealthyUntilExit | main.py:87-97 | while the recorder is seen running the loop keeps its handle and spawns nothing; when the guard then fails it stops there as a guard exit |
| Watchdog.WatchActions | main.py:87-97 | the loop refocuses the game once per completed iteration and does nothing but recorder spawns, sleeps and refocuses |
| Watchdog.WatchTracksDeath | main.py:88-91 | after the loop the time of death is unset iff the last completed iteration saw the recorder running |
| Watchdog.WatchKeepsRecorder | main.py:92-94 | every handle the loop holds refers to a recorder |
| Watchdog.StopsAtGuard | main.py:87 | observations after the first failing guard never affect the loop |
| Watchdog.NoRestartWithinGrace | main.py:90-94 | while the recorder stays dead no more than 5 seconds after it was first seen dead, the loop restarts nothing and keeps its state |
| Watchdog.RestartStorm | main.py:88-94 | while the recorder stays dead past the grace period and no recording instance appears, every iteration spawns a recorder, and the time of death stays set |
| Watchdog.RestartsWhileDead | main.py:88-94 | while the recorder stays dead, no recording instance can be adopted and every spawn succeeds, the number of spawns equals the number of iterations lying more than 5 seconds after the time of death |
| Watchdog.GraceScenario | main.py:84-96 | from a state with no time of death recorded (whatever the spawn count), with one iteration per second from time 1, the recorder dead throughout, no recording instance to adopt and every spawn succeeding, n iterations spawn max(0, n - 6) recorders: the first at time 7 |
| Session.Main | main.py:28-42 | a run exits early iff the first snapshot holds the game or a recording recorder; with the game present it exits as game-active; an early exit spawns, focuses and closes nothing |
| Session.Cleanup | main.py:103-106 | the cleanup issues a request iff a recorder is held and still runs, and then exactly one close request for that recorder |
| Session.RunGrace | main.py:82-96 | a started recorder gets the full grace period: seen dead once a second from time 1 with nothing to adopt, the run spawns no recorder beyond the launch's through time 6, then one per iteration from time 7 on |
| Session.RunIncludesLoop | main.py:44-97 | once the recorder was started, the run refocuses the game once in the launch and once per completed loop iteration, and its recorder spawns are the launch's plus the loop's restarts |
| Session.CloseOnlyAtEnd | main.py:98-106 | the cleanup closes at most once, as the last action, exactly when the loop was entered and left and the recorder still runs; it only ever targets a recorder, never the capture app or the game |
| Session.MainEnding | main.py:44-106 | the run stops in the launch iff the launch was abandoned, with the launch's reason; once the recorder was started, the run ends as a loop exit, a failed restart or still watching exactly as the loop stopped |
| Session.ClosesHeldRecorder | main.py:98-106 | the run ends with a close request iff the launch started a recorder, the loop was left and the recorder still runs; the request names the handle the loop held last |
| Session.AbortClosesNothing | main.py:44-106 | a launch abandoned by the flag or a failed spawn ends the run with the launch's reason, and the run's actions are the launch's, with no close request |
| Session.GameExitClosesRecorder | main.py:87-106 | when the game exits while the recorder runs healthily, the loop spawns nothing, the run ends as a loop exit, and its last action closes the recorder the launch started |
| Session.SignalEndsRun | main.py:87-106 | once the loop guard sees the flag set, the run has ended and no later observation changes it |
| Session.LaunchOnlySpawnsApps | main.py:36-97 | over the whole run, the capture app is spawned iff there was no early exit and none was found; the game is spawned only if the first check saw no signal |

## Left out

- Process enumeration, spawning, `is_running`, the nircmd focus and close
  commands, and the mouse click are foreign OS calls. They appear only as
  observations (snapshots, running answers, spawn success) and as trace events.
- `focus_process` issues two nircmd commands (activate, then set topmost).
  The model records them as one `Focus` event.
- The signal handler and its installation (main.py:21-26) are left out. The
  flag is an input read at each check, not a concurrent write. The model does
  not force the readings to be monotonic.
- Wall-clock time is a natural number of seconds supplied per iteration.
  `time.sleep` is a `Sleep` event.
- Logging is left out. This includes the ending-reason lines of the cleanup
  (main.py:99-102).
- Executable paths, the OBS launch arguments and the working directory are
  configuration, not logic.
- Only spawn failures are modelled as errors. Other exceptions are not
  modelled: a process vanishing during enumeration, denied access to a name or
  command line, or a missing nircmd.
- A failure of the close request is not modelled. Its exit status is ignored
  anyway.
- The loop runs over a finite list of observations. A run whose observations
  run out ends as `StillWatching`, and its cleanup has not happened yet.

=== FILE: launcher.dfy ===
/**
 The launch sequence of main.py:36-82: the early exits on an already active
 session, then capture app, game app, settle, focus, pause and recorder start,
 with the cancellation flag read at each of the five step boundaries.
 */
module Launcher {
  import opened Wrappers
  import opened Registry
  import opened Recorder

  /** Seconds waited after the game is spawned, before it is focused. */
  const SettleDelay: nat := 5
  /** Seconds waited after the focus click, before the recorder is started. */
  const FocusDelay: nat := 1

  /** The value of the cancellation flag at each check of the launch sequence. */
  datatype Signals = Signals(
    afterCapture: bool,
    afterGame: bool,
    afterSettle: bool,
    afterFocus: bool,
    afterPause: bool)

  /** Everything the launch sequence observes from the OS after the first snapshot. */
  datatype LaunchObs = LaunchObs(
    captureSpawnOk: bool,
    gameSpawnOk: bool,
    signals: Signals,
    recorderSnapshot: seq<Proc>,
    recorderSpawnOk: bool)

  /** No check of the launch sequence saw the flag set. */
  predicate NoSignal(s: Signals) {
    !s.afterCapture && !s.afterGame && !s.afterSettle && !s.afterFocus && !s.afterPause
  }

  /** Why the launch left its guarded block before a recorder was assigned. */
  datatype Stop = Cancelled | SpawnFailed(role: Role)

  datatype LaunchResult =
    /** Returned before the guarded block: an early exit that runs no cleanup. */
    | AlreadyActive(role: Role)
    /** Left the guarded block before the recorder handle was assigned. */
    | Abandoned(trace: seq<Event>, why: Stop)
    /** Reached the watchdog with a recorder handle. */
    | Launched(trace: seq<Event>, obs: ObsHandle)
  {
    function Trace(): seq<Event> {
      if AlreadyActive? then [] else trace
    }
  }

  /** The sequence gets as far as starting the recorder. */
  predicate ReachesRecorder(found: Found, lo: LaunchObs) {
    && found.game.None? && found.recording.None?
    && (found.capture.Some? || lo.captureSpawnOk)
    && lo.gameSpawnOk
    && NoSignal(lo.signals)
  }

  /** Run the launch sequence on the classification of the first snapshot. */
  function Launch(found: Found, lo: LaunchObs): (r: LaunchResult)
    ensures r.AlreadyActive? <==> found.game.Some? || found.recording.Some?
    ensures found.game.Some? ==> r == AlreadyActive(GameApp)
    ensures found.game.None? && found.recording.Some? ==> r == AlreadyActive(RecordingApp)
    ensures r.AlreadyActive? ==> r.Trace() == []
    ensures r.Abandoned? && r.why == Cancelled ==> !NoSignal(lo.signals)
  {
    if found.game.Some? then AlreadyActive(GameApp)
    else if found.recording.Some? then AlreadyActive(RecordingApp)
    else
      var capture := CaptureStep(found);
      if found.capture.None? && !lo.captureSpawnOk then Abandoned(capture, SpawnFailed(CaptureApp))
      else if lo.signals.afterCapture then Abandoned(capture, Cancelled)
      else
        var game := capture + [Spawn(GameApp)];
        if !lo.gameSpawnOk then Abandoned(game, SpawnFailed(GameApp))
        else if lo.signals.afterGame then Abandoned(game, Cancelled)
        else
          var settled := game + [Sleep(SettleDelay)];
          if lo.signals.afterSettle then Abandoned(settled, Cancelled)
          else
            var focused := settled + [Focus, Click];
            if lo.signals.afterFocus then Abandoned(focused, Cancelled)
            else
              var paused := focused + [Sleep(FocusDelay)];
              if lo.signals.afterPause then Abandoned(paused, Cancelled)
              else
                var s := StartObs(lo.recorderSnapshot, lo.recorderSpawnOk, 0);
                match s.handle
                case None => Abandoned(paused + s.events, SpawnFailed(RecordingApp))
                case Some(h) => Launched(paused + s.events, h)
  }

  /** The capture app is spawned iff the first snapshot had none. */
  lemma LaunchSpawnsCaptureIff(found: Found, lo: LaunchObs)
    requires found.game.None? && found.recording.None?
    ensures Spawn(CaptureApp) in Launch(found, lo).Trace() <==> found.capture.None?
  {
    var t := Launch(found, lo).Trace();
    var full := Script(found);
    LaunchTraceIsPrefix(found, lo);
    if found.capture.None? {
      assert t[0] == Spawn(CaptureApp);
    } else {
      assert forall k :: 0 <= k < |full| ==> full[k] != Spawn(CaptureApp);
      assert forall k :: 0 <= k < |t| ==> t[k] == full[k];
    }
  }

  /** The game is spawned iff the capture step got through and the first check saw no signal. */
  lemma LaunchSpawnsGameIff(found: Found, lo: LaunchObs)
    ensures Spawn(GameApp) in Launch(found, lo).Trace() <==>
              && found.game.None? && found.recording.None?
              && (found.capture.Some? || lo.captureSpawnOk)
              && !lo.signals.afterCapture
  {
  }

  /** The recorder start is reached iff every earlier step succeeded and all five checks saw no signal. */
  lemma LaunchReachesRecorderIff(found: Found, lo: LaunchObs)
    ensures var r := Launch(found, lo);
            (r.Launched? || r == Abandoned(r.Trace(), SpawnFailed(RecordingApp))) <==>
              ReachesRecorder(found, lo)
  {
  }

  /** The capture step's actions: a spawn only when the first snapshot had no capture app. */
  function CaptureStep(found: Found): seq<Event> {
    if found.capture.None? then [Spawn(CaptureApp)] else []
  }

  /** The actions after the capture step when no step stops it and the recorder start spawns. */
  const Rest: seq<Event> :=
    [Spawn(GameApp), Sleep(SettleDelay), Focus, Click, Sleep(FocusDelay), Spawn(RecordingApp)]

  /** The actions of the guarded block when nothing stops it: every launch does a prefix of these. */
  function Script(found: Found): seq<Event> {
    CaptureStep(found) + Rest
  }

  /** The capture step and the first `n` later steps of the full script. */
  function Done(found: Found, n: nat): seq<Event>
    requires n <= |Rest|
  {
    Script(found)[..|CaptureStep(found)| + n]
  }

  /** Cutting a concatenation inside its second part. */
  lemma PrefixOfAppend(a: seq<Event>, b: seq<Event>, n: nat)
    requires n <= |b|
    ensures (a + b)[..|a| + n] == a + b[..n]
  {
    assert forall k :: 0 <= k < |a| + n ==> (a + b)[k] == (a + b[..n])[k];
  }

  /** The prefixes of the script, step by step, as the launch builds them. */
  lemma DoneStages(found: Found)
    ensures var game := CaptureStep(found) + [Spawn(GameApp)];
            var paused := game + [Sleep(SettleDelay)] + [Focus, Click] + [Sleep(FocusDelay)];
            && Done(found, 0) == CaptureStep(found)
            && Done(found, 1) == game
            && Done(found, 2) == game + [Sleep(SettleDelay)]
            && Done(found, 4) == game + [Sleep(SettleDelay)] + [Focus, Click]
            && Done(found, 5) == paused
            && Done(found, 6) == Script(found)
  {
    var c := CaptureStep(found);
    PrefixOfAppend(c, Rest, 0);
    PrefixOfAppend(c, Rest, 1);
    PrefixOfAppend(c, Rest, 2);
    PrefixOfAppend(c, Rest, 4);
    PrefixOfAppend(c, Rest, 5);
    assert c + Rest[..0] == c;
    assert c + Rest[..1] == c + [Spawn(GameApp)];
    assert c + Rest[..2] == c + [Spawn(GameApp)] + [Sleep(SettleDelay)];
    assert c + Rest[..4] == c + [Spawn(GameApp)] + [Sleep(SettleDelay)] + [Focus, Click];
    assert c + Rest[..5] == c + [Spawn(GameApp)] + [Sleep(SettleDelay)] + [Focus, Click] + [Sleep(FocusDelay)];
  }

  /**
   A flag seen at one of the five checks, or a failed game spawn, abandons the
   launch right there: the steps after that point are never taken.
   */
  lemma LaunchStopsAtCheck(found: Found, lo: LaunchObs)
    requires found.game.None? && found.recording.None?
    requires found.capture.Some? || lo.captureSpawnOk
    ensures lo.signals.afterCapture ==> Launch(found, lo) == Abandoned(Done(found, 0), Cancelled)
    ensures !lo.signals.afterCapture && !lo.gameSpawnOk ==>
              Launch(found, lo) == Abandoned(Done(found, 1), SpawnFailed(GameApp))
    ensures !lo.signals.afterCapture && lo.gameSpawnOk && lo.signals.afterGame ==>
              Launch(found, lo) == Abandoned(Done(found, 1), Cancelled)
    ensures !lo.signals.afterCapture && lo.gameSpawnOk && !lo.signals.afterGame && lo.signals.afterSettle ==>
              Launch(found, lo) == Abandoned(Done(found, 2), Cancelled)
    ensures !lo.signals.afterCapture && lo.gameSpawnOk && !lo.signals.afterGame && !lo.signals.afterSettle &&
            lo.signals.afterFocus ==>
              Launch(found, lo) == Abandoned(Done(found, 4), Cancelled)
    ensures !lo.signals.afterCapture && lo.gameSpawnOk && !lo.signals.afterGame && !lo.signals.afterSettle &&
            !lo.signals.afterFocus && lo.signals.afterPause ==>
              Launch(found, lo) == Abandoned(Done(found, 5), Cancelled)
  {
    DoneStages(found);
  }

  /** A capture app that was missing and fails to spawn abandons the launch after that one attempt. */
  lemma LaunchCaptureFails(found: Found, lo: LaunchObs)
    requires found.game.None? && found.recording.None?
    requires found.capture.None? && !lo.captureSpawnOk
    ensures Launch(found, lo) == Abandoned([Spawn(CaptureApp)], SpawnFailed(CaptureApp))
  {
  }

  /** Nothing before the recorder start spawns a recorder. */
  lemma NoRecorderBeforeStart(found: Found, t: seq<Event>)
    requires t <= Done(found, 5)
    ensures Spawn(RecordingApp) !in t
  {
    DoneStages(found);
    var d := Done(found, 5);
    assert forall k :: 0 <= k < |d| ==> d[k] != Spawn(RecordingApp);
    assert forall k :: 0 <= k < |t| ==> t[k] == d[k];
  }

  /** A launch that does not reach the recorder start stops within its first five later steps. */
  lemma LaunchStopsEarly(found: Found, lo: LaunchObs)
    requires !ReachesRecorder(found, lo)
    ensures Launch(found, lo).Trace() <= Done(found, 5)
  {
    DoneStages(found);
    if found.game.None? && found.recording.None? {
      if found.capture.Some? || lo.captureSpawnOk {
        LaunchStopsAtCheck(found, lo);
      } else {
        LaunchCaptureFails(found, lo);
      }
    }
  }

  /** A launch that reaches the recorder start did the whole script up to it, then the start. */
  lemma LaunchReachesStart(found: Found, lo: LaunchObs)
    requires ReachesRecorder(found, lo)
    ensures var s := StartObs(lo.recorderSnapshot, lo.recorderSpawnOk, 0);
            && Launch(found, lo).Trace() == Done(found, 5) + s.events
            && (Launch(found, lo).Launched? <==> s.handle.Some?)
  {
    DoneStages(found);
  }

  /**
   Once every check is clear the launch does the whole script up to the
   recorder start, then holds exactly the handle the recorder start yields; it
   spawns a recorder iff it got that far and no recording instance was there
   to adopt.
   */
  lemma LaunchStartsRecorder(found: Found, lo: LaunchObs)
    ensures var s := StartObs(lo.recorderSnapshot, lo.recorderSpawnOk, 0);
            ReachesRecorder(found, lo) ==>
              && Launch(found, lo).Trace() == Done(found, 5) + s.events
              && (Launch(found, lo).Launched? <==> s.handle.Some?)
    ensures Launch(found, lo).Launched? ==>
              Some(Launch(found, lo).obs) == StartObs(lo.recorderSnapshot, lo.recorderSpawnOk, 0).handle
    ensures Spawn(RecordingApp) in Launch(found, lo).Trace() <==>
              ReachesRecorder(found, lo) && FirstRecording(lo.recorderSnapshot).None?
  {
    var t := Launch(found, lo).Trace();
    if ReachesRecorder(found, lo) {
      LaunchReachesStart(found, lo);
      var d := Done(found, 5);
      NoRecorderBeforeStart(found, d);
      assert t == d + StartObs(lo.recorderSnapshot, lo.recorderSpawnOk, 0).events;
    } else {
      LaunchStopsEarly(found, lo);
      NoRecorderBeforeStart(found, t);
      LaunchReachesRecorderIff(found, lo);
    }
  }

  /** The script up to the recorder start focuses the game once. */
  lemma DoneFocusesOnce(found: Found)
    ensures multiset(Done(found, 5))[Focus] == 1
  {
    var c := CaptureStep(found);
    var d := Done(found, 5);
    assert d == c + Rest[..5];
    assert multiset(c + Rest[..5]) == multiset(c) + multiset(Rest[..5]);
    assert Rest[..5] == [Spawn(GameApp), Sleep(SettleDelay), Focus, Click, Sleep(FocusDelay)];
  }

  /** A launch that started the recorder focused the game exactly once. */
  lemma LaunchFocusesOnce(found: Found, lo: LaunchObs)
    requires Launch(found, lo).Launched?
    ensures multiset(Launch(found, lo).Trace())[Focus] == 1
  {
    LaunchReachesRecorderIff(found, lo);
    LaunchReachesStart(found, lo);
    DoneFocusesOnce(found);
    var d := Done(found, 5);
    var events := StartObs(lo.recorderSnapshot, lo.recorderSpawnOk, 0).events;
    assert events == [] || events == [Spawn(RecordingApp)];
    assert multiset(d + events) == multiset(d) + multiset(events);
  }

  /** Whatever stops the launch, what it did is a prefix of the full script. */
  lemma LaunchTraceIsPrefix(found: Found, lo: LaunchObs)
    ensures Launch(found, lo).Trace() <= Script(found)
    ensures found.game.None? && found.recording.None? && found.capture.None? ==>
              |Launch(found, lo).Trace()| >= 1
  {
    DoneStages(found);
    var t := Launch(found, lo).Trace();
    var game := CaptureStep(found) + [Spawn(GameApp)];
    var settled := game + [Sleep(SettleDelay)];
    var focused := settled + [Focus, Click];
    var paused := focused + [Sleep(FocusDelay)];
    if found.game.Some? || found.recording.Some? {
    } else if (found.capture.None? && !lo.captureSpawnOk) || lo.signals.afterCapture {
      assert t == CaptureStep(found);
    } else if !lo.gameSpawnOk || lo.signals.afterGame {
      assert t == game;
    } else if lo.signals.afterSettle {
      assert t == settled;
    } else if lo.signals.afterFocus {
      assert t == focused;
    } else if lo.signals.afterPause {
      assert t == paused;
    } else {
      var events := StartObs(lo.recorderSnapshot, lo.recorderSpawnOk, 0).events;
      assert t == paused + events;
      assert events == [] || events == [Spawn(RecordingApp)];
      assert paused + [] == paused;
    }
  }

  /** The launch sequence never asks anything to close. */
  lemma LaunchClosesNothing(found: Found, lo: LaunchObs)
    ensures NoClose(Launch(found, lo).Trace())
  {
    LaunchTraceIsPrefix(found, lo);
    PrefixClosesNothing(Launch(found, lo).Trace(), Script(found));
  }

  /** A prefix of the full script closes nothing, as the script itself does not. */
  lemma PrefixClosesNothing(t: seq<Event>, full: seq<Event>)
    requires t <= full && (forall k :: 0 <= k < |full| ==> !full[k].Close?)
    ensures NoClose(t)
  {
    assert forall k :: 0 <= k < |t| ==> t[k] == full[k];
  }

  /** A prefix holds no more copies of an element than the whole sequence. */
  lemma PrefixCount(t: seq<Event>, full: seq<Event>, e: Event)
    requires t <= full
    ensures multiset(t)[e] <= multiset(full)[e]
  {
    assert full == t + full[|t|..];
    assert multiset(full) == multiset(t) + multiset(full[|t|..]);
  }

  /** The full script spawns each role at most once. */
  lemma ScriptSpawnsOnce(found: Found, role: Role)
    ensures multiset(Script(found))[Spawn(role)] <= 1
  {
    var capture := CaptureStep(found);
    assert multiset(capture + Rest) == multiset(capture) + multiset(Rest);
    assert multiset(Rest)[Spawn(role)] == (if role == CaptureApp then 0 else 1);
  }

  /** Each role is spawned at most once by the launch sequence. */
  lemma LaunchSpawnsOnce(found: Found, lo: LaunchObs, role: Role)
    ensures multiset(Launch(found, lo).Trace())[Spawn(role)] <= 1
  {
    LaunchTraceIsPrefix(found, lo);
    ScriptSpawnsOnce(found, role);
    PrefixCount(Launch(found, lo).Trace(), Script(found), Spawn(role));
  }
}

=== FILE: recorder.dfy ===
/**
 The OS actions the supervisor initiates, recorded as a trace, and the
 reuse-or-spawn start of the recorder (main.py:113-130).
 */
module Recorder {
  import opened Wrappers
  import opened Registry

  /**
   The recorder the session manages: an already-recording instance found in a
   snapshot, or the `serial`-th recorder this session spawned successfully.
   */
  datatype ObsHandle = Adopted(proc: Proc) | Spawned(serial: nat)

  /** The handle refers to a recorder: one this session spawned or an adopted recording instance. */
  predicate IsRecorderHandle(h: ObsHandle) {
    h.Spawned? || IsObsRecording(h.proc)
  }

  /**
   One OS-facing action. `Spawn` is recorded when a start is attempted, whether
   or not it succeeds; `Focus` activates and pins the game window; `Close`
   asks the recorder to close.
   */
  datatype Event =
    | Spawn(role: Role)
    | Sleep(seconds: nat)
    | Focus
    | Click
    | Close(target: ObsHandle)

  /** No action of `t` is a close request. */
  predicate NoClose(t: seq<Event>) {
    forall e :: e in t ==> !e.Close?
  }

  /** The handle a recorder start yields (None when the spawn failed) and its actions. */
  datatype Start = Start(handle: Option<ObsHandle>, events: seq<Event>)

  /**
   Start the recorder in recording mode: adopt the first recording instance of
   `snap` if there is one, otherwise spawn a new one (`spawnOk` says whether
   the spawn succeeds; `serial` numbers the new handle).
   */
  function StartObs(snap: seq<Proc>, spawnOk: bool, serial: nat): (r: Start)
    ensures r.events == [] <==> FirstRecording(snap).Some?
    ensures r.events == [] || r.events == [Spawn(RecordingApp)]
    ensures r.handle.None? <==> FirstRecording(snap).None? && !spawnOk
    ensures r.handle.Some? && r.handle.value.Spawned? ==> r.handle.value.serial == serial
    ensures r.handle.Some? ==> IsRecorderHandle(r.handle.value)
  {
    match FirstRecording(snap)
    case Some(p) => Start(Some(Adopted(p)), [])
    case None => Start(if spawnOk then Some(Spawned(serial)) else None, [Spawn(RecordingApp)])
  }

  /**
   With a recording instance in the snapshot the start spawns nothing and
   adopts the first such instance; without one it spawns exactly one recorder.
   */
  lemma StartObsReuseOrSpawn(snap: seq<Proc>, spawnOk: bool, serial: nat)
    ensures var r := StartObs(snap, spawnOk, serial);
            (exists i :: 0 <= i < |snap| && IsObsRecording(snap[i])) ==>
              && r.events == []
              && r.handle.Some? && r.handle.value.Adopted?
              && exists i :: 0 <= i < |snap| && snap[i] == r.handle.value.proc && IsObsRecording(snap[i]) &&
                             forall j :: 0 <= j < i ==> !IsObsRecording(snap[j])
    ensures var r := StartObs(snap, spawnOk, serial);
            (forall i :: 0 <= i < |snap| ==> !IsObsRecording(snap[i])) ==>
              && r.events == [Spawn(RecordingApp)]
              && r.handle == (if spawnOk then Some(Spawned(serial)) else None)
  {
  }
}

=== FILE: registry.dfy ===
/**
 Process classification: which of the three managed roles, if any, an
 observed OS process plays (main.py:28-34 and the predicates at main.py:133-146).
 */
module Registry {
  import opened Wrappers
  import opened Text

  /** One entry of a process snapshot: id, executable name and command-line arguments. */
  datatype Proc = Proc(pid: nat, name: string, cmdline: seq<string>)

  /** The roles a managed process can play. */
  datatype Role = CaptureApp | GameApp | RecordingApp

  const CaptureExe: string := "camostudio.exe"
  const GameExe: string := "itgmania.exe"
  const RecorderExe: string := "obs64.exe"
  /** The argument that starts the recorder in recording mode. */
  const RecordFlag: string := "--startrecording"

  predicate IsCamostudio(p: Proc) {
    EndsWith(p.name, CaptureExe)
  }

  predicate IsItgmania(p: Proc) {
    EndsWith(p.name, GameExe)
  }

  predicate IsObs(p: Proc) {
    EndsWith(p.name, RecorderExe)
  }

  /** A recorder whose command line carries the recording flag inside some argument. */
  predicate IsObsRecording(p: Proc) {
    IsObs(p) && exists i :: 0 <= i < |p.cmdline| && Find(p.cmdline[i], RecordFlag) >= 0
  }

  /** The predicate that on its own decides a role, without the priority chain. */
  predicate Matches(p: Proc, role: Role) {
    match role
    case CaptureApp => IsCamostudio(p)
    case GameApp => IsItgmania(p)
    case RecordingApp => IsObsRecording(p)
  }

  /** No executable name ends with two of the three managed names. */
  lemma NamesExclusive(p: Proc)
    ensures !(IsCamostudio(p) && IsItgmania(p))
    ensures !(IsCamostudio(p) && IsObs(p))
    ensures !(IsItgmania(p) && IsObs(p))
  {
    assert !EndsWith(CaptureExe, GameExe) by { assert CaptureExe[2] != GameExe[0]; }
    assert !EndsWith(CaptureExe, RecorderExe) by { assert CaptureExe[5] != RecorderExe[0]; }
    assert !EndsWith(GameExe, RecorderExe) by { assert GameExe[3] != RecorderExe[0]; }
    if IsCamostudio(p) && IsItgmania(p) {
      SuffixesNest(p.name, GameExe, CaptureExe);
    }
    if IsCamostudio(p) && IsObs(p) {
      SuffixesNest(p.name, RecorderExe, CaptureExe);
    }
    if IsItgmania(p) && IsObs(p) {
      SuffixesNest(p.name, RecorderExe, GameExe);
    }
  }

  /**
   The role of one process under the camostudio > itgmania > recording-obs
   chain; because the name tests are disjoint, a process has a role exactly
   when that role's own predicate holds.
   */
  function RoleOf(p: Proc): (r: Option<Role>)
    ensures forall role :: r == Some(role) <==> Matches(p, role)
  {
    NamesExclusive(p);
    if IsCamostudio(p) then Some(CaptureApp)
    else if IsItgmania(p) then Some(GameApp)
    else if IsObsRecording(p) then Some(RecordingApp)
    else None
  }

  /** A recorder gets the recording role iff some argument contains the flag as a substring. */
  lemma RecorderRoleNeedsFlag(p: Proc)
    requires IsObs(p)
    ensures RoleOf(p) == Some(RecordingApp) <==>
              exists i, j :: 0 <= i < |p.cmdline| && OccursAt(p.cmdline[i], RecordFlag, j)
    ensures (forall i, j :: 0 <= i < |p.cmdline| ==> !OccursAt(p.cmdline[i], RecordFlag, j)) ==>
              RoleOf(p) == None
  {
    if exists i, j :: 0 <= i < |p.cmdline| && OccursAt(p.cmdline[i], RecordFlag, j) {
      var i, j :| 0 <= i < |p.cmdline| && OccursAt(p.cmdline[i], RecordFlag, j);
      assert Find(p.cmdline[i], RecordFlag) >= 0;
    } else {
      forall i | 0 <= i < |p.cmdline|
        ensures Find(p.cmdline[i], RecordFlag) == -1
      {
      }
      NamesExclusive(p);
      assert !Matches(p, CaptureApp) && !Matches(p, GameApp) && !Matches(p, RecordingApp);
    }
  }

  /** The processes of one snapshot that play each role; absent means not running. */
  datatype Found = Found(capture: Option<Proc>, game: Option<Proc>, recording: Option<Proc>) {

    /** The process kept for `role`. */
    function Get(role: Role): Option<Proc> {
      match role
      case CaptureApp => capture
      case GameApp => game
      case RecordingApp => recording
    }
  }

  /**
   `p` is what a scan of `snap` keeps for `role` when each match overwrites the
   previous one: the last matching process, or None when nothing matches.
   */
  ghost predicate IsLastMatch(snap: seq<Proc>, role: Role, p: Option<Proc>) {
    match p
    case None => forall i :: 0 <= i < |snap| ==> !Matches(snap[i], role)
    case Some(q) =>
      exists i :: 0 <= i < |snap| && snap[i] == q && Matches(q, role) &&
                  forall j :: i < j < |snap| ==> !Matches(snap[j], role)
  }

  /** One iteration of the classification loop. */
  function Record(f: Found, p: Proc): Found {
    match RoleOf(p)
    case None => f
    case Some(CaptureApp) => f.(capture := Some(p))
    case Some(GameApp) => f.(game := Some(p))
    case Some(RecordingApp) => f.(recording := Some(p))
  }

  /** One iteration sets a role's slot to the process iff the process matches that role. */
  lemma RecordSlot(f: Found, p: Proc, role: Role)
    ensures Record(f, p).Get(role) == if Matches(p, role) then Some(p) else f.Get(role)
  {
    match RoleOf(p)
    case None =>
    case Some(other) => assert Matches(p, other);
  }

  /** A matching last process is the last match of the whole snapshot. */
  lemma LastMatchAtEnd(snap: seq<Proc>, role: Role)
    requires |snap| > 0 && Matches(snap[|snap| - 1], role)
    ensures IsLastMatch(snap, role, Some(snap[|snap| - 1]))
  {
    var n := |snap| - 1;
    assert n + 1 == |snap|;
  }

  /** A last process that does not match leaves the last match of the prefix in place. */
  lemma LastMatchSkips(snap: seq<Proc>, role: Role, p: Option<Proc>)
    requires |snap| > 0 && !Matches(snap[|snap| - 1], role)
    requires IsLastMatch(snap[..|snap| - 1], role, p)
    ensures IsLastMatch(snap, role, p)
  {
    var n := |snap| - 1;
    var prefix := snap[..n];
    match p
    case None =>
      forall i | 0 <= i < |snap|
        ensures !Matches(snap[i], role)
      {
        if i < n {
          assert snap[i] == prefix[i];
        }
      }
    case Some(q) =>
      var i :| 0 <= i < n && prefix[i] == q && Matches(q, role) &&
               forall j :: i < j < n ==> !Matches(prefix[j], role);
      forall j | i < j < |snap|
        ensures !Matches(snap[j], role)
      {
        if j < n {
          assert snap[j] == prefix[j];
        }
      }
      assert snap[i] == q;
  }

  /** Scanning one more process keeps the last-match property of every role's slot. */
  lemma RecordExtends(snap: seq<Proc>, f: Found, role: Role)
    requires |snap| > 0
    requires IsLastMatch(snap[..|snap| - 1], role, f.Get(role))
    ensures IsLastMatch(snap, role, Record(f, snap[|snap| - 1]).Get(role))
  {
    var p := snap[|snap| - 1];
    RecordSlot(f, p, role);
    if Matches(p, role) {
      LastMatchAtEnd(snap, role);
    } else {
      LastMatchSkips(snap, role, f.Get(role));
    }
  }

  /** Classify a whole snapshot, scanning it from first to last. */
  function Classify(snap: seq<Proc>): (f: Found)
    decreases |snap|
    ensures IsLastMatch(snap, CaptureApp, f.capture)
    ensures IsLastMatch(snap, GameApp, f.game)
    ensures IsLastMatch(snap, RecordingApp, f.recording)
  {
    if |snap| == 0 then Found(None, None, None)
    else
      var n := |snap| - 1;
      var f := Classify(snap[..n]);
      assert f.capture == f.Get(CaptureApp) && f.game == f.Get(GameApp) && f.recording == f.Get(RecordingApp);
      RecordExtends(snap, f, CaptureApp);
      RecordExtends(snap, f, GameApp);
      RecordExtends(snap, f, RecordingApp);
      Record(f, snap[n])
  }

  /** The first recording recorder of a snapshot, as the recorder start scans for it. */
  function FirstRecording(snap: seq<Proc>): (r: Option<Proc>)
    decreases |snap|
    ensures r.None? <==> forall i :: 0 <= i < |snap| ==> !IsObsRecording(snap[i])
    ensures r.Some? ==>
              exists i :: 0 <= i < |snap| && snap[i] == r.value && IsObsRecording(snap[i]) &&
                          forall j :: 0 <= j < i ==> !IsObsRecording(snap[j])
  {
    if |snap| == 0 then None
    else if IsObsRecording(snap[0]) then Some(snap[0])
    else
      var r := FirstRecording(snap[1..]);
      assert forall i :: 0 < i < |snap| ==> snap[1..][i - 1] == snap[i];
      r
  }
}

=== FILE: session.dfy ===
/**
 The whole of `main` (main.py:16-106): classify the first snapshot, launch,
 watch, and in every exit from the guarded block close the recorder if the
 session holds one that still runs.
 */
module Session {
  import opened Wrappers
  import opened Registry
  import opened Recorder
  import opened Launcher
  import opened Watchdog

  /** Every observation one run of the supervisor makes, in order. */
  datatype SessionObs = SessionObs(
    initial: seq<Proc>,
    launch: LaunchObs,
    ticks: seq<TickObs>,
    obsRunningAtExit: bool)

  /** How a run ended. */
  datatype Ending =
    /** The game or a recording recorder was already running: nothing was done. */
    | EarlyExit(role: Role)
    /** The launch sequence stopped before the recorder was started. */
    | LaunchStopped(why: Stop)
    /** The loop guard failed: the flag was set or the game exited. */
    | LoopExited
    /** A restart's spawn failed inside the loop. */
    | RestartFailed
    /** The observations ran out while the loop still ran. */
    | StillWatching

  datatype Run = Run(trace: seq<Event>, ending: Ending)

  /** The cleanup block: ask the held recorder to close if it still runs. */
  function Cleanup(obs: Option<ObsHandle>, obsRunning: bool): (r: seq<Event>)
    ensures r != [] <==> obs.Some? && obsRunning
    ensures r != [] ==> r == [Close(obs.value)]
  {
    match obs
    case Some(h) => if obsRunning then [Close(h)] else []
    case None => []
  }

  /** One run of the supervisor over its observations. */
  function Main(o: SessionObs): (r: Run)
    ensures r.ending.EarlyExit? <==>
              Classify(o.initial).game.Some? || Classify(o.initial).recording.Some?
    ensures Classify(o.initial).game.Some? ==> r == Run([], EarlyExit(GameApp))
    ensures r.ending.EarlyExit? ==> r.trace == []
  {
    var found := Classify(o.initial);
    match Launch(found, o.launch)
    case AlreadyActive(role) => Run([], EarlyExit(role))
    case Abandoned(trace, why) =>
      // The cleanup finds no recorder: classification found none, or the run would have exited early.
      Run(trace, LaunchStopped(why))
    case Launched(trace, h) =>
      var w := Watch(Initial(h), o.ticks);
      Run(trace + w.trace + AfterLoop(w, o.obsRunningAtExit), LoopEnding(w.halt))
  }

  /** How a run that entered the loop ended. */
  function LoopEnding(halt: Halt): Ending {
    match halt
    case Pending => StillWatching
    case GuardFailed => LoopExited
    case Faulted => RestartFailed
  }

  /** The cleanup after the loop: none while it still runs, otherwise for the handle it holds last. */
  function AfterLoop(w: Watched, obsRunning: bool): seq<Event> {
    if w.halt == Pending then [] else Cleanup(Some(w.state.obs), obsRunning)
  }

  /** The watchdog's state on entry: the recorder just started, not seen dead. */
  function Initial(h: ObsHandle): WatchState {
    WatchState(h, None, if h.Spawned? then 1 else 0)
  }

  /** Actions without a close request followed by at most one action: only that one can be a close. */
  lemma CloseOnlyLast(body: seq<Event>, tail: seq<Event>)
    requires NoClose(body) && |tail| <= 1
    ensures var t := body + tail;
            forall k :: 0 <= k < |t| && t[k].Close? ==> k == |t| - 1
    ensures var t := body + tail;
            (|t| > 0 && t[|t| - 1].Close?) <==> |tail| == 1 && tail[0].Close?
    ensures forall e :: e in body + tail && e.Close? ==> e in tail
  {
    var t := body + tail;
    assert forall k :: 0 <= k < |body| ==> t[k] == body[k];
  }

  /** A close request issued by the cleanup targets a recorder, never the capture app or the game. */
  lemma CleanupTarget(h: ObsHandle, running: bool)
    requires IsRecorderHandle(h)
    ensures forall e :: e in Cleanup(Some(h), running) ==>
              e == Close(h) && (h.Adopted? ==> !IsCamostudio(h.proc) && !IsItgmania(h.proc))
  {
    if h.Adopted? {
      NamesExclusive(h.proc);
    }
  }

  /**
   The cleanup closes at most once, as the run's last action, and does so
   exactly when the loop was entered and left and the recorder then still
   runs; it only targets a recorder, never the capture app or the game.
   */
  predicate ClosesOnlyAtEnd(r: Run, obsRunningAtExit: bool) {
    && (forall k :: 0 <= k < |r.trace| && r.trace[k].Close? ==> k == |r.trace| - 1)
    && ((|r.trace| > 0 && r.trace[|r.trace| - 1].Close?) <==>
          (r.ending.LoopExited? || r.ending.RestartFailed?) && obsRunningAtExit)
    && (forall e :: e in r.trace && e.Close? ==>
          && IsRecorderHandle(e.target)
          && (e.target.Adopted? ==> !IsCamostudio(e.target.proc) && !IsItgmania(e.target.proc)))
  }

  /** A loop that never closed anything, after a launch that did not either, closes only in its cleanup. */
  lemma LoopClosesAtEnd(launch: seq<Event>, w: Watched, obsRunning: bool)
    requires NoClose(launch) && NoClose(w.trace) && IsRecorderHandle(w.state.obs)
    ensures ClosesOnlyAtEnd(Run(launch + w.trace + AfterLoop(w, obsRunning), LoopEnding(w.halt)), obsRunning)
  {
    CloseOnlyLast(launch + w.trace, AfterLoop(w, obsRunning));
    CleanupTarget(w.state.obs, obsRunning);
  }

  /** A run that reached the loop closes only in its cleanup. */
  lemma LaunchedClosesAtEnd(o: SessionObs, trace: seq<Event>, h: ObsHandle)
    requires Launch(Classify(o.initial), o.launch) == Launched(trace, h)
    requires NoClose(trace)
    ensures ClosesOnlyAtEnd(Main(o), o.obsRunningAtExit)
  {
    var st := Initial(h);
    WatchActions(st, o.ticks);
    WatchKeepsRecorder(st, o.ticks);
    LoopClosesAtEnd(trace, Watch(st, o.ticks), o.obsRunningAtExit);
  }

  /**
   The cleanup asks the recorder to close at most once, as the run's last
   action, and does so exactly when the watch loop was entered and left and
   the recorder then still runs; the request always targets a recorder, never
   the capture app or the game.
   */
  lemma CloseOnlyAtEnd(o: SessionObs)
    ensures var t := Main(o).trace;
            forall k :: 0 <= k < |t| && t[k].Close? ==> k == |t| - 1
    ensures var t := Main(o).trace;
            (|t| > 0 && t[|t| - 1].Close?) <==>
              (Main(o).ending.LoopExited? || Main(o).ending.RestartFailed?) && o.obsRunningAtExit
    ensures forall e :: e in Main(o).trace && e.Close? ==> IsRecorderHandle(e.target)
    ensures forall e :: e in Main(o).trace && e.Close? && e.target.Adopted? ==>
              !IsCamostudio(e.target.proc) && !IsItgmania(e.target.proc)
  {
    var l := Launch(Classify(o.initial), o.launch);
    LaunchClosesNothing(Classify(o.initial), o.launch);
    match l
    case AlreadyActive(_) =>
    case Abandoned(trace, _) =>
      assert Main(o).trace == trace + [];
      CloseOnlyLast(trace, []);
    case Launched(trace, h) =>
      LaunchedClosesAtEnd(o, trace, h);
  }

  /**
   How a run ended follows from what the launch returned and how the loop
   stopped: it stopped in the launch iff the launch was abandoned, and once the
   recorder was started it ended as the loop did.
   */
  lemma MainEnding(o: SessionObs)
    ensures var l := Launch(Classify(o.initial), o.launch);
            Main(o).ending.LaunchStopped? <==> l.Abandoned?
    ensures var l := Launch(Classify(o.initial), o.launch);
            l.Abandoned? ==> Main(o).ending == LaunchStopped(l.why)
    ensures var l := Launch(Classify(o.initial), o.launch);
            l.Launched? ==>
              var w := Watch(Initial(l.obs), o.ticks);
              && (Main(o).ending == LoopExited <==> w.halt == GuardFailed)
              && (Main(o).ending == RestartFailed <==> w.halt == Faulted)
              && (Main(o).ending == StillWatching <==> w.halt == Pending)
  {
  }

  /**
   The cleanup closes the recorder exactly when the launch started one, the
   loop was left, and the recorder still runs; the request is the run's last
   action and names the handle the loop held last.
   */
  lemma ClosesHeldRecorder(o: SessionObs)
    ensures var l := Launch(Classify(o.initial), o.launch);
            var t := Main(o).trace;
            (|t| > 0 && t[|t| - 1].Close?) <==>
              l.Launched? && Watch(Initial(l.obs), o.ticks).halt != Pending && o.obsRunningAtExit
    ensures var l := Launch(Classify(o.initial), o.launch);
            var t := Main(o).trace;
            l.Launched? && Watch(Initial(l.obs), o.ticks).halt != Pending && o.obsRunningAtExit ==>
              |t| > 0 && t[|t| - 1] == Close(Watch(Initial(l.obs), o.ticks).state.obs)
  {
    CloseOnlyAtEnd(o);
    MainEnding(o);
  }

  /** A launch stopped by the flag or a failed spawn closes nothing: no recorder is held yet. */
  lemma AbortClosesNothing(o: SessionObs)
    requires Launch(Classify(o.initial), o.launch).Abandoned?
    ensures Main(o).ending == LaunchStopped(Launch(Classify(o.initial), o.launch).why)
    ensures Main(o).trace == Launch(Classify(o.initial), o.launch).Trace()
    ensures NoClose(Main(o).trace)
  {
    LaunchClosesNothing(Classify(o.initial), o.launch);
  }

  /**
   Once the recorder was started, the run's actions include the loop's: the
   game is refocused once by the launch and once per completed iteration, and
   the recorder spawns are the launch's plus the loop's restarts.
   */
  lemma RunIncludesLoop(o: SessionObs)
    requires Launch(Classify(o.initial), o.launch).Launched?
    ensures var l := Launch(Classify(o.initial), o.launch);
            var w := Watch(Initial(l.obs), o.ticks);
            && multiset(Main(o).trace)[Focus] == 1 + w.iterations
            && multiset(Main(o).trace)[Spawn(RecordingApp)] ==
                 multiset(l.trace)[Spawn(RecordingApp)] + multiset(w.trace)[Spawn(RecordingApp)]
  {
    var found := Classify(o.initial);
    var l := Launch(found, o.launch);
    var w := Watch(Initial(l.obs), o.ticks);
    LaunchFocusesOnce(found, o.launch);
    WatchFocusCount(Initial(l.obs), o.ticks);
    var tail := AfterLoop(w, o.obsRunningAtExit);
    assert tail == [] || tail == [Close(w.state.obs)];
    assert Main(o).trace == l.trace + w.trace + tail;
    assert multiset(l.trace + w.trace + tail) == multiset(l.trace) + multiset(w.trace) + multiset(tail);
  }

  /**
   A started recorder gets the full grace period: if it is seen dead once a
   second from time 1 with nothing to adopt, the run spawns no recorder
   beyond the launch's through time 6 and one more at every iteration from
   time 7 on.
   */
  lemma RunGrace(o: SessionObs, n: nat)
    requires Launch(Classify(o.initial), o.launch).Launched?
    requires o.ticks == DeadFrom(1, n)
    ensures var l := Launch(Classify(o.initial), o.launch);
            multiset(Main(o).trace)[Spawn(RecordingApp)] ==
              multiset(l.trace)[Spawn(RecordingApp)] + (if n <= 6 then 0 else n - 6)
  {
    var l := Launch(Classify(o.initial), o.launch);
    var s0 := Initial(l.obs).spawned;
    assert Initial(l.obs) == WatchState(l.obs, None, s0);
    RunIncludesLoop(o);
    GraceScenario(l.obs, s0, n);
  }

  /**
   The game exits while the recorder runs healthily: the loop restarts
   nothing, the run ends as a loop exit, and its last action closes the
   recorder the launch started.
   */
  lemma GameExitClosesRecorder(o: SessionObs, k: nat)
    requires Launch(Classify(o.initial), o.launch).Launched?
    requires k < |o.ticks| && !o.ticks[k].gameRunning
    requires forall i :: 0 <= i < k ==> Continues(o.ticks[i]) && o.ticks[i].obsRunning
    requires o.obsRunningAtExit
    ensures Main(o).ending == LoopExited
    ensures var l := Launch(Classify(o.initial), o.launch);
            var t := Main(o).trace;
            && |t| > |l.trace|
            && t[..|l.trace|] == l.trace
            && Spawn(RecordingApp) !in t[|l.trace|..]
            && t[|t| - 1] == Close(l.obs)
  {
    var l := Launch(Classify(o.initial), o.launch);
    var st := Initial(l.obs);
    HealthyUntilExit(st, o.ticks, k);
    var w := Watch(st, o.ticks);
    var t := Main(o).trace;
    assert t == l.trace + (w.trace + [Close(l.obs)]);
    assert t[|l.trace|..] == w.trace + [Close(l.obs)];
  }

  /**
   Once the loop guard sees the flag set, later observations are never
   consulted: the run is the same with them cut off, and it has ended.
   */
  lemma SignalEndsRun(o: SessionObs, k: nat)
    requires k < |o.ticks| && o.ticks[k].signaled
    ensures Main(o) == Main(o.(ticks := o.ticks[..k + 1]))
    ensures Main(o).ending != StillWatching
  {
    var l := Launch(Classify(o.initial), o.launch);
    if l.Launched? {
      StopsAtGuard(Initial(l.obs), o.ticks, k);
    }
  }

  /**
   Over the whole run, the capture app is spawned iff the first snapshot had
   none and the session was not already active, and the game only if the
   check after the capture step saw no signal.
   */
  lemma LaunchOnlySpawnsApps(o: SessionObs)
    ensures var found := Classify(o.initial);
            Spawn(CaptureApp) in Main(o).trace <==>
              found.game.None? && found.recording.None? && found.capture.None?
    ensures Spawn(GameApp) in Main(o).trace ==> !o.launch.signals.afterCapture
  {
    var found := Classify(o.initial);
    var l := Launch(found, o.launch);
    LaunchSpawnsGameIff(found, o.launch);
    if !l.AlreadyActive? {
      LaunchSpawnsCaptureIff(found, o.launch);
    }
    if l.Launched? {
      var st := Initial(l.obs);
      var w := Watch(st, o.ticks);
      WatchActions(st, o.ticks);
      assert Spawn(CaptureApp) !in w.trace && Spawn(GameApp) !in w.trace;
      var t := Main(o).trace;
      assert t == l.trace + w.trace || t == l.trace + w.trace + [Close(w.state.obs)];
    }
  }
}

=== FILE: text.dfy ===
/**
 The two string tests the process classifier is built from: a case-sensitive
 suffix test and a substring search that answers like a search returning the
 first index of a match, or -1 when there is none.
 */
module Text {

  /** `s` ends with `suffix`; characters are compared exactly (no case folding). */
  predicate EndsWith(s: string, suffix: string) {
    |suffix| <= |s| && s[|s| - |suffix|..] == suffix
  }

  /** `sub` occurs in `s` starting at index `i`. */
  predicate OccursAt(s: string, sub: string, i: int) {
    0 <= i && i + |sub| <= |s| && s[i..i + |sub|] == sub
  }

  /** The least index at which `sub` occurs in `s`, or -1 when it occurs nowhere. */
  function Find(s: string, sub: string): (r: int)
    ensures r == -1 || OccursAt(s, sub, r)
    ensures r == -1 <==> forall i :: !OccursAt(s, sub, i)
    ensures forall i :: 0 <= i < r ==> !OccursAt(s, sub, i)
  {
    FindFrom(s, sub, 0)
  }

  /** The least index `i >= k` at which `sub` occurs in `s`, or -1. */
  function FindFrom(s: string, sub: string, k: nat): (r: int)
    requires k <= |s|
    decreases |s| - k
    ensures r == -1 || (k <= r && OccursAt(s, sub, r))
    ensures r == -1 <==> forall i :: k <= i ==> !OccursAt(s, sub, i)
    ensures forall i :: k <= i < r ==> !OccursAt(s, sub, i)
  {
    if k + |sub| > |s| then -1
    else if s[k..k + |sub|] == sub then k
    else FindFrom(s, sub, k + 1)
  }

  /** Two suffixes of one string are nested: the shorter is a suffix of the longer. */
  lemma {:induction false} SuffixesNest(s: string, a: string, b: string)
    requires EndsWith(s, a) && EndsWith(s, b) && |a| <= |b|
    ensures EndsWith(b, a)
  {
    var n := |s|;
    assert b == s[n - |b|..];
    assert b[|b| - |a|..] == s[n - |b|..][|b| - |a|..] == s[n - |a|..];
  }
}

=== FILE: watchdog.dfy ===
/**
 The recording watchdog of main.py:84-97: while the flag is clear and the game
 runs, track since when the recorder has been seen dead and restart it once
 that time lies more than the grace period back; then sleep and refocus.
 */
module Watchdog {
  import opened Wrappers
  import opened Registry
  import opened Recorder

  /** Seconds the recorder may stay dead before a restart is issued (strictly more). */
  const GracePeriod: int := 5
  /** Seconds slept at the end of every iteration. */
  const TickInterval: nat := 1

  /** What one loop iteration observes, in the order the code asks for it. */
  datatype TickObs = TickObs(
    signaled: bool,
    gameRunning: bool,
    obsRunning: bool,
    now: nat,
    snapshot: seq<Proc>,
    spawnOk: bool)

  /**
   The loop's state: the current recorder handle, the time it was first seen
   dead (None while seen running), and how many recorders have been spawned.
   */
  datatype WatchState = WatchState(obs: ObsHandle, deadSince: Option<nat>, spawned: nat)

  /** The loop guard. */
  predicate Continues(o: TickObs) {
    !o.signaled && o.gameRunning
  }

  /** The recorder was seen dead before and the grace period has run out. */
  predicate RestartDue(st: WatchState, o: TickObs) {
    !o.obsRunning && st.deadSince.Some? && o.now - st.deadSince.value > GracePeriod
  }

  datatype TickResult =
    /** The iteration completed. */
    | Next(state: WatchState, events: seq<Event>)
    /** The restart's spawn failed, so the iteration ended in an error. */
    | Crashed(events: seq<Event>)

  /** The body of one loop iteration (the guard is evaluated by the caller). */
  function Tick(st: WatchState, o: TickObs): (r: TickResult)
    ensures r.Next? ==> (r.state.deadSince.None? <==> o.obsRunning)
    ensures r.Next? && !o.obsRunning ==>
              r.state.deadSince == if st.deadSince.None? then Some(o.now) else st.deadSince
    ensures r.Next? && r.state.obs != st.obs ==> RestartDue(st, o)
    ensures r.Crashed? <==> RestartDue(st, o) && FirstRecording(o.snapshot).None? && !o.spawnOk
    ensures !RestartDue(st, o) ==> r.Next? && r.state.obs == st.obs && r.state.spawned == st.spawned
    ensures RestartDue(st, o) && r.Next? ==>
              Some(r.state.obs) == StartObs(o.snapshot, o.spawnOk, st.spawned).handle
  {
    var tail := [Sleep(TickInterval), Focus];
    if o.obsRunning then Next(st.(deadSince := None), tail)
    else if st.deadSince.None? then Next(st.(deadSince := Some(o.now)), tail)
    else if o.now - st.deadSince.value > GracePeriod then
      var s := StartObs(o.snapshot, o.spawnOk, st.spawned);
      match s.handle
      case None => Crashed(s.events)
      case Some(h) =>
        var spawned := if s.events == [] then st.spawned else st.spawned + 1;
        Next(st.(obs := h, spawned := spawned), s.events + tail)
    else Next(st, tail)
  }

  /** The actions of one iteration, case by case. */
  lemma TickEvents(st: WatchState, o: TickObs)
    ensures !(RestartDue(st, o) && FirstRecording(o.snapshot).None?) ==>
              Tick(st, o).events == [Sleep(TickInterval), Focus]
    ensures RestartDue(st, o) && FirstRecording(o.snapshot).None? ==>
              Tick(st, o).events ==
                if o.spawnOk then [Spawn(RecordingApp), Sleep(TickInterval), Focus] else [Spawn(RecordingApp)]
  {
    if RestartDue(st, o) && FirstRecording(o.snapshot).None? && o.spawnOk {
      assert [Spawn(RecordingApp)] + [Sleep(TickInterval), Focus] ==
             [Spawn(RecordingApp), Sleep(TickInterval), Focus];
    }
  }

  /**
   The actions of one iteration: a completed one ends with the sleep and the
   refocus; a recorder is spawned, at most once, exactly when a restart is due
   and no recording instance can be adopted.
   */
  lemma TickActions(st: WatchState, o: TickObs)
    ensures Tick(st, o).Next? ==>
              var ev := Tick(st, o).events;
              |ev| >= 2 && ev[|ev| - 2..] == [Sleep(TickInterval), Focus]
    ensures Spawn(RecordingApp) in Tick(st, o).events <==>
              RestartDue(st, o) && FirstRecording(o.snapshot).None?
    ensures multiset(Tick(st, o).events)[Spawn(RecordingApp)] <= 1
    ensures multiset(Tick(st, o).events)[Focus] == if Tick(st, o).Next? then 1 else 0
    ensures forall e :: e in Tick(st, o).events ==>
              e == Spawn(RecordingApp) || e == Sleep(TickInterval) || e == Focus
  {
    TickEvents(st, o);
    var ev := Tick(st, o).events;
    if !(RestartDue(st, o) && FirstRecording(o.snapshot).None?) {
      assert ev == [Sleep(TickInterval), Focus];
      assert multiset(ev) == multiset{Sleep(TickInterval), Focus};
    } else if o.spawnOk {
      assert ev[1..] == [Sleep(TickInterval), Focus];
      assert multiset(ev) == multiset{Spawn(RecordingApp), Sleep(TickInterval), Focus};
    } else {
      assert multiset(ev) == multiset{Spawn(RecordingApp)};
    }
  }

  /** How the loop stopped. */
  datatype Halt =
    /** The guard failed: the flag was set or the game no longer runs. */
    | GuardFailed
    /** A restart's spawn failed and the error left the loop. */
    | Faulted
    /** The observations ran out while the loop still ran. */
    | Pending

  /** The loop's trace, final state, number of completed iterations and how it stopped. */
  datatype Watched = Watched(trace: seq<Event>, state: WatchState, iterations: nat, halt: Halt)

  /** Run the loop over successive observations, one per guard evaluation. */
  function Watch(st: WatchState, ticks: seq<TickObs>): (w: Watched)
    decreases |ticks|
    ensures w.iterations <= |ticks|
    ensures forall i :: 0 <= i < w.iterations ==> Continues(ticks[i])
    ensures w.halt == GuardFailed ==> w.iterations < |ticks| && !Continues(ticks[w.iterations])
    ensures w.halt == Faulted ==> w.iterations < |ticks| && Continues(ticks[w.iterations])
    ensures w.halt == Pending <==> w.iterations == |ticks|
    ensures w.iterations == 0 ==> w.state == st
  {
    if |ticks| == 0 then Watched([], st, 0, Pending)
    else if !Continues(ticks[0]) then Watched([], st, 0, GuardFailed)
    else
      match Tick(st, ticks[0])
      case Crashed(events) => Watched(events, st, 0, Faulted)
      case Next(st', events) =>
        var w := Watch(st', ticks[1..]);
        assert forall i :: 0 < i <= w.iterations ==> ticks[1..][i - 1] == ticks[i];
        Watched(events + w.trace, w.state, w.iterations + 1, w.halt)
  }

  /** The loop refocuses the game once per completed iteration. */
  lemma {:induction false} WatchFocusCount(st: WatchState, ticks: seq<TickObs>)
    decreases |ticks|
    ensures multiset(Watch(st, ticks).trace)[Focus] == Watch(st, ticks).iterations
  {
    if |ticks| > 0 && Continues(ticks[0]) {
      TickActions(st, ticks[0]);
      match Tick(st, ticks[0])
      case Crashed(_) =>
      case Next(st', events) =>
        WatchFocusCount(st', ticks[1..]);
        var w := Watch(st', ticks[1..]);
        assert multiset(events + w.trace) == multiset(events) + multiset(w.trace);
    }
  }

  /** The loop does nothing but recorder spawns, sleeps and refocuses. */
  lemma {:induction false} WatchEventKinds(st: WatchState, ticks: seq<TickObs>)
    decreases |ticks|
    ensures forall e :: e in Watch(st, ticks).trace ==>
              e == Spawn(RecordingApp) || e == Sleep(TickInterval) || e == Focus
  {
    if |ticks| > 0 && Continues(ticks[0]) {
      TickActions(st, ticks[0]);
      match Tick(st, ticks[0])
      case Crashed(_) =>
      case Next(st', events) =>
        WatchEventKinds(st', ticks[1..]);
        var w := Watch(st', ticks[1..]);
        assert Watch(st, ticks).trace == events + w.trace;
        assert forall e :: e in events + w.trace ==> e in events || e in w.trace;
    }
  }

  /**
   The loop's actions: one refocus per completed iteration, and nothing but
   recorder spawns, sleeps and refocuses; in particular it never closes anything.
   */
  lemma WatchActions(st: WatchState, ticks: seq<TickObs>)
    ensures multiset(Watch(st, ticks).trace)[Focus] == Watch(st, ticks).iterations
    ensures forall e :: e in Watch(st, ticks).trace ==>
              e == Spawn(RecordingApp) || e == Sleep(TickInterval) || e == Focus
  {
    WatchFocusCount(st, ticks);
    WatchEventKinds(st, ticks);
  }

  /**
   After at least one completed iteration, the time of death is unset exactly
   when the last iteration saw the recorder running.
   */
  lemma {:induction false} WatchTracksDeath(st: WatchState, ticks: seq<TickObs>)
    decreases |ticks|
    ensures var w := Watch(st, ticks);
            w.iterations > 0 ==> (w.state.deadSince.None? <==> ticks[w.iterations - 1].obsRunning)
  {
    if |ticks| > 0 && Continues(ticks[0]) {
      match Tick(st, ticks[0])
      case Crashed(_) =>
      case Next(st', events) =>
        WatchTracksDeath(st', ticks[1..]);
        var w := Watch(st', ticks[1..]);
        if w.iterations > 0 {
          assert ticks[1..][w.iterations - 1] == ticks[w.iterations];
        }
    }
  }

  /** Every handle the loop holds refers to a recorder. */
  lemma {:induction false} WatchKeepsRecorder(st: WatchState, ticks: seq<TickObs>)
    requires IsRecorderHandle(st.obs)
    decreases |ticks|
    ensures IsRecorderHandle(Watch(st, ticks).state.obs)
  {
    if |ticks| > 0 && Continues(ticks[0]) {
      match Tick(st, ticks[0])
      case Crashed(_) =>
      case Next(st', _) =>
        WatchKeepsRecorder(st', ticks[1..]);
    }
  }

  /**
   The loop stops with an error only at an iteration whose guard held and
   whose restart spawn failed, on the state the loop held before it.
   */
  lemma {:induction false} WatchFaultsOnlyOnCrash(st: WatchState, ticks: seq<TickObs>)
    decreases |ticks|
    ensures var w := Watch(st, ticks);
            w.halt == Faulted ==> Tick(w.state, ticks[w.iterations]).Crashed?
  {
    if |ticks| > 0 && Continues(ticks[0]) && Tick(st, ticks[0]).Next? {
      var r := Tick(st, ticks[0]);
      var rest := ticks[1..];
      WatchUnfold(st, ticks);
      WatchFaultsOnlyOnCrash(r.state, rest);
      var w := Watch(r.state, rest);
      if w.halt == Faulted {
        assert rest[w.iterations] == ticks[w.iterations + 1];
      }
    }
  }

  /**
   The loop acts in iteration order: while the first `k` observations leave it
   running, its actions over them are the start of its actions over all, and
   it completes at least those `k` iterations.
   */
  lemma {:induction false} WatchExtends(st: WatchState, ticks: seq<TickObs>, k: nat)
    requires k <= |ticks|
    requires Watch(st, ticks[..k]).halt == Pending
    decreases k
    ensures Watch(st, ticks[..k]).trace <= Watch(st, ticks).trace
    ensures Watch(st, ticks).iterations >= k
  {
    if k > 0 {
      var pre := ticks[..k];
      assert pre[0] == ticks[0];
      match Tick(st, ticks[0])
      case Crashed(_) =>
      case Next(st', events) =>
        assert pre[1..] == ticks[1..][..k - 1];
        WatchUnfold(st, pre);
        WatchUnfold(st, ticks);
        WatchExtends(st', ticks[1..], k - 1);
    }
  }

  /**
   A restart whose spawn fails ends the loop: once the first `k` observations
   leave the loop running, a crash at observation `k` stops it there with an
   error, after `k` completed iterations.
   */
  lemma {:induction false} CrashEndsLoop(st: WatchState, ticks: seq<TickObs>, k: nat)
    requires k < |ticks|
    requires Watch(st, ticks[..k]).halt == Pending
    requires Continues(ticks[k]) && Tick(Watch(st, ticks[..k]).state, ticks[k]).Crashed?
    decreases k
    ensures Watch(st, ticks).halt == Faulted
    ensures Watch(st, ticks).iterations == k
  {
    if k > 0 {
      var pre := ticks[..k];
      assert pre[0] == ticks[0];
      match Tick(st, ticks[0])
      case Crashed(_) =>
      case Next(st', _) =>
        assert pre[1..] == ticks[1..][..k - 1];
        assert ticks[1..][k - 1] == ticks[k];
        CrashEndsLoop(st', ticks[1..], k - 1);
    }
  }

  /**
   The failed spawn attempt of a crashing restart is the loop's last action:
   the loop's actions are those of the `k` completed iterations, then the
   attempt.
   */
  lemma {:induction false} CrashRecordsAttempt(st: WatchState, ticks: seq<TickObs>, k: nat)
    requires k < |ticks|
    requires Watch(st, ticks[..k]).halt == Pending
    requires Continues(ticks[k]) && Tick(Watch(st, ticks[..k]).state, ticks[k]).Crashed?
    decreases k
    ensures Watch(st, ticks).trace == Watch(st, ticks[..k]).trace + [Spawn(RecordingApp)]
  {
    if k == 0 {
      TickEvents(st, ticks[0]);
    } else {
      var pre := ticks[..k];
      assert pre[0] == ticks[0];
      match Tick(st, ticks[0])
      case Crashed(_) =>
      case Next(st', events) =>
        assert pre[1..] == ticks[1..][..k - 1];
        assert ticks[1..][k - 1] == ticks[k];
        WatchUnfold(st, pre);
        WatchUnfold(st, ticks);
        CrashRecordsAttempt(st', ticks[1..], k - 1);
        var inner := Watch(st', pre[1..]).trace;
        assert events + (inner + [Spawn(RecordingApp)]) == (events + inner) + [Spawn(RecordingApp)];
    }
  }

  /**
   While the recorder is seen running the loop keeps its handle and spawns
   nothing; when the guard then fails (the game exited or the flag was set)
   the loop ends there, still holding that handle.
   */
  lemma {:induction false} HealthyUntilExit(st: WatchState, ticks: seq<TickObs>, k: nat)
    requires k < |ticks| && !Continues(ticks[k])
    requires forall i :: 0 <= i < k ==> Continues(ticks[i]) && ticks[i].obsRunning
    decreases k
    ensures Watch(st, ticks).halt == GuardFailed
    ensures Watch(st, ticks).iterations == k
    ensures Watch(st, ticks).state.obs == st.obs
    ensures Spawn(RecordingApp) !in Watch(st, ticks).trace
  {
    if k > 0 {
      var st' := st.(deadSince := None);
      assert Tick(st, ticks[0]) == Next(st', [Sleep(TickInterval), Focus]);
      assert forall i :: 0 <= i < k - 1 ==> ticks[1..][i] == ticks[i + 1];
      HealthyUntilExit(st', ticks[1..], k - 1);
    }
  }

  /** One completed iteration followed by the loop over the remaining observations. */
  lemma WatchUnfold(st: WatchState, ticks: seq<TickObs>)
    requires |ticks| > 0 && Continues(ticks[0]) && Tick(st, ticks[0]).Next?
    ensures var r := Tick(st, ticks[0]);
            var w := Watch(r.state, ticks[1..]);
            Watch(st, ticks) == Watched(r.events + w.trace, w.state, w.iterations + 1, w.halt)
  {
  }

  /** Observations after the first failing guard are never consulted. */
  lemma {:induction false} StopsAtGuard(st: WatchState, ticks: seq<TickObs>, k: nat)
    requires k < |ticks| && !Continues(ticks[k])
    decreases k
    ensures Watch(st, ticks) == Watch(st, ticks[..k + 1])
  {
    var short := ticks[..k + 1];
    assert short[0] == ticks[0];
    if k > 0 && Continues(ticks[0]) {
      match Tick(st, ticks[0])
      case Crashed(_) =>
      case Next(st', _) =>
        assert short[1..] == ticks[1..][..k];
        StopsAtGuard(st', ticks[1..], k - 1);
    }
  }

  /**
   While the recorder stays dead within the grace period of the time it was
   first seen dead, the loop restarts nothing and its state does not change.
   */
  lemma {:induction false} NoRestartWithinGrace(st: WatchState, ticks: seq<TickObs>)
    requires st.deadSince.Some?
    requires forall i :: 0 <= i < |ticks| ==>
               && Continues(ticks[i]) && !ticks[i].obsRunning
               && ticks[i].now - st.deadSince.value <= GracePeriod
    decreases |ticks|
    ensures Watch(st, ticks).halt == Pending
    ensures Watch(st, ticks).state == st
    ensures Spawn(RecordingApp) !in Watch(st, ticks).trace
  {
    if |ticks| > 0 {
      assert Tick(st, ticks[0]) == Next(st, [Sleep(TickInterval), Focus]);
      NoRestartWithinGrace(st, ticks[1..]);
    }
  }

  /**
   An iteration that passes the guard and sees the recorder dead, with no
   recording instance to adopt and a spawn that would succeed.
   */
  predicate DeadAndRespawnable(o: TickObs) {
    Continues(o) && !o.obsRunning && FirstRecording(o.snapshot).None? && o.spawnOk
  }

  /**
   A restart does not clear the time the recorder was first seen dead: while
   it is still seen dead past the grace period and no recording instance
   appears, every iteration spawns another recorder.
   */
  lemma {:induction false} RestartStorm(st: WatchState, ticks: seq<TickObs>)
    requires st.deadSince.Some?
    requires forall i :: 0 <= i < |ticks| ==>
               DeadAndRespawnable(ticks[i]) && ticks[i].now - st.deadSince.value > GracePeriod
    decreases |ticks|
    ensures Watch(st, ticks).halt == Pending
    ensures Watch(st, ticks).state.deadSince == st.deadSince
    ensures Watch(st, ticks).state.spawned == st.spawned + |ticks|
    ensures multiset(Watch(st, ticks).trace)[Spawn(RecordingApp)] == |ticks|
  {
    if |ticks| > 0 {
      var r := Tick(st, ticks[0]);
      TickActions(st, ticks[0]);
      assert r == Next(st.(obs := Spawned(st.spawned), spawned := st.spawned + 1),
                       [Spawn(RecordingApp), Sleep(TickInterval), Focus]);
      RestartStorm(r.state, ticks[1..]);
      var w := Watch(r.state, ticks[1..]);
      assert multiset(r.events + w.trace) == multiset(r.events) + multiset(w.trace);
    }
  }

  /** How many of the observations lie more than the grace period after `since`. */
  function Overdue(ticks: seq<TickObs>, since: nat): nat
    decreases |ticks|
  {
    if |ticks| == 0 then 0
    else (if ticks[0].now - since > GracePeriod then 1 else 0) + Overdue(ticks[1..], since)
  }

  /** Counting one more observation at the end. */
  lemma {:induction false} OverdueSnoc(ticks: seq<TickObs>, t: TickObs, since: nat)
    decreases |ticks|
    ensures Overdue(ticks + [t], since) == Overdue(ticks, since) + if t.now - since > GracePeriod then 1 else 0
  {
    if |ticks| > 0 {
      assert (ticks + [t])[1..] == ticks[1..] + [t];
      OverdueSnoc(ticks[1..], t, since);
    } else {
      assert ticks + [t] == [t];
    }
  }

  /**
   While the recorder stays dead and no recording instance appears, the loop
   spawns one recorder for each observation that lies more than the grace
   period after the time it was first seen dead, and none for the others.
   */
  lemma {:induction false} RestartsWhileDead(st: WatchState, ticks: seq<TickObs>)
    requires st.deadSince.Some?
    requires forall i :: 0 <= i < |ticks| ==> DeadAndRespawnable(ticks[i])
    decreases |ticks|
    ensures Watch(st, ticks).halt == Pending
    ensures Watch(st, ticks).state.deadSince == st.deadSince
    ensures multiset(Watch(st, ticks).trace)[Spawn(RecordingApp)] == Overdue(ticks, st.deadSince.value)
  {
    if |ticks| > 0 {
      var r := Tick(st, ticks[0]);
      assert DeadAndRespawnable(ticks[0]);
      if ticks[0].now - st.deadSince.value > GracePeriod {
        assert r == Next(st.(obs := Spawned(st.spawned), spawned := st.spawned + 1),
                         [Spawn(RecordingApp), Sleep(TickInterval), Focus]);
      } else {
        assert r == Next(st, [Sleep(TickInterval), Focus]);
      }
      RestartsWhileDead(r.state, ticks[1..]);
      var w := Watch(r.state, ticks[1..]);
      assert multiset(r.events + w.trace) == multiset(r.events) + multiset(w.trace);
    }
  }

  /** An iteration that sees the game running, the recorder dead and no recording instance. */
  function Dead(now: nat): TickObs {
    TickObs(false, true, false, now, [], true)
  }

  /** `n` iterations one second apart from time `from`, each seeing the recorder dead. */
  function DeadFrom(from: nat, n: nat): (r: seq<TickObs>)
    decreases n
    ensures |r| == n
    ensures forall i :: 0 <= i < n ==> r[i] == Dead(from + i)
  {
    if n == 0 then [] else DeadFrom(from, n - 1) + [Dead(from + n - 1)]
  }

  lemma {:induction false} DeadFromCons(n: nat)
    decreases n
    ensures DeadFrom(1, n + 1) == [Dead(1)] + DeadFrom(2, n)
  {
    if n > 0 {
      DeadFromCons(n - 1);
    }
  }

  lemma {:induction false} DeadFromOverdue(n: nat)
    decreases n
    ensures Overdue(DeadFrom(2, n), 1) == if n <= 5 then 0 else n - 5
  {
    if n > 0 {
      DeadFromOverdue(n - 1);
      OverdueSnoc(DeadFrom(2, n - 1), Dead(2 + n - 1), 1);
    }
  }

  /**
   A loop entered with the recorder not yet seen dead, which then sees it dead
   once a second from time 1: over `n` iterations no restart happens through
   time 6, and from time 7 on (the first time more than five seconds later)
   every iteration restarts it.
   */
  lemma GraceScenario(h: ObsHandle, s0: nat, n: nat)
    ensures multiset(Watch(WatchState(h, None, s0), DeadFrom(1, n)).trace)[Spawn(RecordingApp)] ==
            if n <= 6 then 0 else n - 6
  {
    if n > 0 {
      DeadFromCons(n - 1);
      ScenarioStep(h, s0, n - 1);
      DeadFromOverdue(n - 1);
    }
  }

  /** The scenario after its first iteration, which records time 1 as the time of death. */
  lemma ScenarioStep(h: ObsHandle, s0: nat, m: nat)
    ensures multiset(Watch(WatchState(h, None, s0), [Dead(1)] + DeadFrom(2, m)).trace)[Spawn(RecordingApp)] ==
            Overdue(DeadFrom(2, m), 1)
  {
    var rest := DeadFrom(2, m);
    var st := WatchState(h, None, s0);
    var st1 := WatchState(h, Some(1), s0);
    var ticks := [Dead(1)] + rest;
    assert ticks[0] == Dead(1) && ticks[1..] == rest;
    assert Tick(st, Dead(1)) == Next(st1, [Sleep(TickInterval), Focus]);
    WatchUnfold(st, ticks);
    RestartsWhileDead(st1, rest);
    var w := Watch(st1, rest);
    assert multiset([Sleep(TickInterval), Focus] + w.trace) == multiset([Sleep(TickInterval), Focus]) + multiset(w.trace);
  }
}

=== FILE: wrappers.dfy ===
/** The optional value used for the handles the supervisor may or may not hold. */
module Wrappers {

  datatype Option<+T> = None | Some(value: T)
}
